=== FILE: README.md ===
# pchain in Dafny

A model of `pchain`, a small JavaScript library that composes promise-returning
functions ("steps") into one promise-returning function. It has two composers:

- `series(first, next..., [options])` calls `first` with the caller's arguments
  and then each continuation with the single value its predecessor resolved to.
  An array continuation is shorthand for `parallel` over its elements. A trailing
  object-typed argument is taken as the options, and `{all: true}` switches on
  "all" mode.
- `parallel(branches...)` calls every branch with the same arguments and joins
  them with `Promise.all`.

`series.all(...)` is `series(..., {all: true})`. The top-level `pchain(...)` is
`series(...)`.

## How the model works

- Each future is abstracted as the outcome it settles to (`Ok(value)` or
  `Err(reason)`) together with the time it takes to settle. This makes the
  composition rules deterministic.
- The world is a `World`. It maps a primitive step and an argument list to an
  outcome and to a delay.
- `Eval.Invoke` runs a composed step and returns a `Run`. A run holds the outcome,
  the trace of primitive calls with their exact argument lists, and the settlement
  time. "Called once", "never called" and "called with" are all statements about
  the trace.
- Composition arguments carry explicit tags: `Fn(step)`, `Arr(steps)`,
  `Obj(all)` and `Scalar`. `Scalar` stands for a value of primitive type:
  `undefined`, a boolean, a number or a string. The JavaScript code tells these
  apart by runtime shape instead. `Compose.IsObjectTyped` is the
  `typeof x === 'object'` test. It holds for arrays and plain objects, and not
  for functions or values of primitive type.
- `Eval.Chain` is the `reduce` of `series`. `Eval.Then` is one round of it:
  `promise.then(next)`, followed in "all" mode by the `{result}`/`{error}`
  tagging. An `Obj` that is not in last position stays a continuation, and so
  does a `Scalar` in any position. For these, `.then` passes the value or the
  rejection through unchanged. This is also what
  happens to a user options object given to `series.all`.
- `Join` models `Promise.all` twice:
  - `PromiseAll` uses an explicit settlement order, a permutation of the branch
    indices.
  - `JoinByTime` uses the branches' settlement times.
  - `PromiseAllAgreesWithSettlementTimes` proves that the two agree when the
    order is the one sorted by settlement time, ties going to the branch
    declared first.

### Behaviour worth noting

- A trailing array is taken as the options and dropped, because `typeof [] ===
  'object'` (`pchain.js:6-7`). Its `all` is unset, and its steps are never
  called. See `SeriesLaws.TrailingArrayDropped`.
- Suppose an "all"-mode series has at least one continuation and its first step
  rejects with `e`. The series then resolves to `{error: e}`, and the rejection
  does not surface: the `.catch` at `pchain.js:19` catches the rejection passed on
  by `.then` at `pchain.js:14`. The first continuation is skipped. The disabled
  test at `test/pchain.spec.js:333` expects it to be called with `{error: e}`
  instead. See `AllModeLaws.AllModeNeverRejects` and
  `Scenarios.SeriesAllFirstFails`.
- In "all" mode the first continuation receives the first step's raw value,
  because the tag is applied only after a continuation (`pchain.js:14-19`). The
  library's own test at `test/pchain.spec.js:309` checks exactly this. The
  comment on that line and the disabled test at `test/pchain.spec.js:353`
  expect `p2` to receive `{result: 'result1'}` instead. See
  `Scenarios.SeriesAllBothSucceed`.
- The series resolves to the tagged value of its last call (`pchain.js:17-18`).
  After `p2` resolves 'result2', that is `{result: 'result2'}`. The commented-out
  assertion at `test/pchain.spec.js:315` expects `{result: 'result1'}`. See
  `Scenarios.SeriesAllBothSucceedResolves`.
- `parallel()` with no branches resolves to the empty list: it is
  `Promise.all` over an empty array (`pchain.js:32-38`). See
  `ParallelLaws.ParallelOfPrims`.

## Model

| member | source | states |
|---|---|---|
| Compose.IsObjectTyped | pchain.js:6 | Among the arguments the model has (a function, an array, a plain object or a value of primitive type), the options test holds exactly for arrays and plain objects |
| Compose.SeriesOf | pchain.js:4-7 | Only the last argument after the first step is examined. It is removed exactly when it is an array or a plain object, and nothing else changes. "all" mode is on exactly when it is an object with `all` set, so a trailing array is dropped with `all` unset and a trailing function is kept as a step |
| Compose.SeriesAll | pchain.js:26-30 | `series.all` keeps every argument the caller gave as a continuation, even a trailing array or object, and switches "all" mode on |
| Compose.PChain | pchain.js:42-45 | The top-level callable composes exactly what `series` composes |
| Eval.Invoke | pchain.js:9-22 | Calling a primitive step records exactly one call, with exactly the caller's arguments, and settles as that call does. What a series does is stated by `Eval.Chain` (the first step's calls come first, and time only moves forward), `SeriesLaws.SeriesArgumentFlow`, `SeriesLaws.ShortCircuit` and `AllModeLaws.AllModeNeverRejects`. A group's full outcome is stated by `Eval.InvokeParallel` |
| Eval.InvokeParallel | pchain.js:34-39 | A called group resolves iff every branch, called on its own with the group's arguments, resolves. It then resolves to the list of branch values in declaration order, whatever order they settle in. Otherwise it rejects with the reason of a rejecting branch that no other rejecting branch settles before, ties going to the branch declared first |
| Eval.InvokeBranches | pchain.js:36-37 | The group produces one run per branch, in declaration order, and run i is branch i called on its own with the group's own argument list |
| Values.Tag | pchain.js:17-19 | "All" mode turns a resolution into `{result: v}` and a rejection into `{error: e}`. The object keeps both which of the two happened and the value or reason |
| Eval.Then | pchain.js:14-20 | One round of the reduce never undoes earlier calls. In default mode, after a rejection it calls nothing and keeps the reason. In "all" mode it always resolves, to `{result: v}` or `{error: e}` |
| Eval.Chain | pchain.js:10-22 | The reduce only appends calls after the ones the first step made, and time only moves forward |
| Join.PromiseAll | pchain.js:36-38 | The join resolves iff every branch resolves, to the branch values in declaration order whatever the settlement order. Otherwise it rejects, never with a list, with the reason of the first rejecting branch in settlement order |
| Join.EarliestRejection | pchain.js:36-38 | Finds a rejecting branch that no other rejecting branch settles before, ties going to the one declared first. It finds none iff every branch resolves |
| Join.JoinByTime | pchain.js:36-38 | With settlement times: resolves iff every branch resolves, to the values in declaration order. Otherwise it rejects with the reason of the earliest-settling rejecting branch |
| Join.JoinTime | pchain.js:36-38 | The join settles at the time of one of its branches. When all resolve, that is when the last one resolves. When any rejects, it is no later than every rejection and is the time of one of them |
| Join.Latest | pchain.js:36-38 | The time at which all of several futures have settled is the largest of their times, and 0 for none |
| Join.PromiseAllAgreesWithSettlementTimes | pchain.js:36-38 | For the settlement order sorted by settlement time, ties going to the branch declared first, the order-based and the time-based join give the same outcome |
| SeriesLaws.ChainAppend | pchain.js:10-22 | Reducing over `p + q` is reducing over `p` and then over `q` |
| SeriesLaws.ChainAfterRejection | pchain.js:14 | In default mode, once the chain has rejected, no later continuation is called and the reason passes on unchanged |
| SeriesLaws.ShortCircuit | pchain.js:9-22 | If the chain has rejected by continuation k, the whole series equals its run up to k. Nothing after k appears in the trace, and the series rejects with the same reason |
| SeriesLaws.PrimChainFlow | pchain.js:10-22 | Each primitive continuation is called once, in order, with the single value its predecessor resolved to. The chain stops exactly at the first rejection and settles as its last call did |
| SeriesLaws.SeriesArgumentFlow | pchain.js:9-22 | Default-mode series of primitive steps: the first step is called once with exactly the caller's arguments. Each later step is called once with one argument, its predecessor's resolved value. Calls stop exactly at the first rejection, and the result, or the unchanged rejection reason, is that of the last call |
| SeriesLaws.NoContinuations | pchain.js:5-22 | When nothing follows the first step, or only an options argument does, the series behaves exactly as its first step: same trace and same outcome |
| SeriesLaws.TrailingArrayDropped | pchain.js:6-7 | A trailing array is consumed as options: its steps are never called and "all" mode stays off |
| SeriesLaws.TrailingScalarIgnored | pchain.js:6-14 | A trailing `undefined`, boolean, number or string is not taken as the options. Every argument stays a continuation, "all" mode stays off, and `.then` ignores the trailing value, so the series behaves as if it were absent: `series(a, b, undefined)` is `series(a, b)` |
| SeriesLaws.ArrayShorthand | pchain.js:11-13 | An array continuation behaves exactly like `parallel` over its elements in the same position: same trace, same outcome, same settlement time |
| SeriesLaws.ArrayShorthandComposed | pchain.js:5-13 | The same holds through argument parsing whenever the array is not the last argument |
| ParallelLaws.ParallelSettlementOrder | pchain.js:36-38 | For the settlement order sorted by the branches' settlement times, ties going to the branch declared first, the group settles as `Promise.all` over the branch outcomes in that order |
| ParallelLaws.ParallelOfPrims | pchain.js:32-39 | A group of primitive steps calls each branch exactly once, in declaration order, with the identical argument list, and calls nothing else. It resolves iff all calls resolve, to their values in order (the empty group to the empty list). Otherwise it rejects with the outcome of one of its calls |
| ParallelLaws.PrimTraces | pchain.js:36-38 | The calls of a group of primitive steps are exactly one call per branch, in declaration order, each with the same arguments |
| AllModeLaws.ThenTagged | pchain.js:14-20 | An "all"-mode round is the default-mode round with `Ok(v)` turned into `{result: v}` and `Err(e)` into `{error: e}` |
| AllModeLaws.ChainAllResolves | pchain.js:15-20 | After at least one continuation, an "all"-mode chain resolves to a tagged value |
| AllModeLaws.AllModeNeverRejects | pchain.js:9-22 | With at least one continuation, an "all"-mode series never rejects, even when its first step rejects |
| AllModeLaws.AllModeInitiatorRejected | pchain.js:14-19 | When the first step rejects with `e`, the first continuation is skipped and `{error: e}` flows on to the rest |
| AllModeLaws.AllPrimChainFlow | pchain.js:14-20 | In "all" mode every primitive continuation is called. The first gets the resolved value, and each later one gets its predecessor's tagged outcome |
| AllModeLaws.SeriesAllArgumentFlow | pchain.js:14-30 | `series.all` of primitive steps calls the first step with the caller's arguments. If that step resolves, every continuation runs, the first with the raw value. If it rejects, the first continuation is skipped. Later continuations get tagged outcomes, and the series resolves to the tagged outcome of its last call |
| Scenarios.CombinedSeriesAndParallel | test/pchain.spec.js:192-240 | `series(p1, parallel(p2, p3), p4)('foo', 'bar')` calls `p1('foo', 'bar')`, `p2('herp')`, `p3('herp')` and `p4(['derp', true])`, and resolves false |
| Scenarios.CombinedSeriesAndArray | pchain.js:11-13 | `series(p1, [p2, p3], p4)('foo', 'bar')` makes the same calls as the `parallel(p2, p3)` form and resolves false. The test at `test/pchain.spec.js:241-289` is named after arrays, but its body repeats the `parallel(p2, p3)` form |
| Scenarios.SeriesThrowsFirstError | test/pchain.spec.js:74-91 | `p1` rejecting means `p2` is never called, and the series rejects with 'error' |
| Scenarios.ParallelThrowsFirstError | test/pchain.spec.js:154-171 | Both branches are called, and the group rejects with the first branch's reason |
| Scenarios.ParallelThrowsSecondError | test/pchain.spec.js:172-189 | Both branches are called, and the group rejects with the second branch's reason |
| Scenarios.SeriesAllBothSucceed | test/pchain.spec.js:293-309 | `series.all(p1, p2)('foo', 'bar')` calls `p1('foo', 'bar')` once and, after `p1` resolves 'result1', calls `p2` once with the raw 'result1' |
| Scenarios.SeriesAllBothSucceedResolves | pchain.js:14-18 | When `p2` then resolves 'result2', the series resolves to `{result: 'result2'}`. The disabled assertion at `test/pchain.spec.js:315` expects `{result: 'result1'}`, which the code does not produce |
| Scenarios.SeriesAllSecondFails | pchain.js:14-19 | `series.all(p1, p2)` calls `p2` with `p1`'s raw value 'result1'. When `p2` rejects with 'result2', the series resolves to `{error: 'result2'}` |
| Scenarios.SeriesAllFirstFails | pchain.js:14-19 | `series.all(p1, p2)` with `p1` rejecting skips `p2` and resolves to `{error: 'error'}` |

## Left out

- The injectable `pchain.Promise` slot and the module/global wrapper (`pchain.js:1`, `pchain.js:47-53`) are host plumbing. The model's `Promise.all` is fixed.
- The `console.log('all')` at `pchain.js:16` has no effect on any outcome.
- Synchronous `TypeError`s are not modelled. The initiator is typed as a step, and parallel branches are typed as steps. So the model has no missing or non-function first argument, no nested array inside a parallel group, and no `null` trailing argument.
- A step that throws synchronously, or returns a non-promise, is not modelled. Every step returns a future.
- Real microtask scheduling and concurrency are abstracted:
  - Each primitive call settles after a delay given by the world.
  - Simultaneous settlements go to the branch declared first.
  - The trace of a parallel group lists its branches' calls branch by branch. When a branch is itself a series, its later calls actually interleave in time with its siblings' calls. The model records which calls happen, with what arguments and in what per-branch order, but not that global interleaving.
- The model fixes the `all` flag and the elements of an array continuation when the series is composed. The code keeps references to the caller's own options object (`pchain.js:7`) and array (`pchain.js:11-12`), and reads them again at each call (`pchain.js:15`). So changing them after composition, for example `o.all = true` or `g.push(d)`, is not modelled.
- Values of primitive type are modelled as arguments only by their type (`Scalar`), because `.then` ignores them (`pchain.js:14`). A `null` argument is not among them: its `typeof` is `'object'`, so it would be taken as the options and `options.all` would throw, as in the line on synchronous `TypeError`s above.
- Steps are deterministic. Two calls of the same step with the same arguments settle the same way after the same delay.
- Options objects carry only `all`, as a boolean. Other keys are ignored by the code. Truthiness of non-boolean `all` values is not modelled.
- `gulpfile.js` and the mocha/sinon test harness are build and test tooling. The tests serve only as scenarios under `Scenarios`.
- SeriesLaws.SeriesArgumentFlow: the call-by-call trace statement covers series of primitive steps only. For nested steps the model relies on `ShortCircuit`, `ArrayShorthand` and `Eval.InvokeParallel`, because nested traces are grouped per branch rather than in temporal order.
- ParallelLaws.ParallelOfPrims: the statement that every call happens before any result is used covers primitive branches only. For those, the trace is exactly one call per branch.

=== FILE: all_mode_laws.dfy ===
/**
  What "all" mode (`series.all`, or a trailing `{all: true}`) does: after every
  continuation the chained outcome becomes `{result: v}` or `{error: e}`, so
  every later continuation runs and, with at least one continuation, the series
  never rejects; not even when the first step rejects.
 */
module AllModeLaws {
  import opened Values
  import opened Compose
  import opened Eval
  import opened SeriesLaws

  /** Call `i` of `trace` is continuation `ids[i - offset]`, given the tagged outcome of the previous call. */
  predicate TagFedBy(w: World, trace: seq<Call>, ids: seq<StepId>, offset: nat, i: nat)
    requires 0 < i < |trace| && offset <= i < offset + |ids|
  {
    trace[i] == Call(ids[i - offset], [Tag(OutcomeOf(w, trace[i - 1]))])
  }

  /** One round in "all" mode is the default-mode round with its outcome tagged. */
  lemma ThenTagged(w: World, next: Arg, acc: Run)
    ensures var d := Then(w, next, false, acc);
      Then(w, next, true, acc) == Run(Ok(Tag(d.outcome)), d.trace, d.took)
  {
  }

  /** After at least one continuation, an "all"-mode chain resolves to a tagged outcome. */
  lemma {:induction false} ChainAllResolves(w: World, conts: seq<Arg>, acc: Run)
    requires |conts| > 0
    ensures var r := Chain(w, conts, true, acc);
      r.outcome.Ok? && (r.outcome.value.Result? || r.outcome.value.Error?)
    decreases |conts|
  {
    if |conts| > 1 {
      ChainAllResolves(w, conts[1..], Then(w, conts[0], true, acc));
    }
  }

  /** With at least one continuation, an "all"-mode series never rejects, whatever its steps do. */
  lemma AllModeNeverRejects(w: World, first: Step, conts: seq<Arg>, args: seq<Value>)
    requires |conts| > 0
    ensures var r := Invoke(w, Series(first, conts, true), args);
      r.outcome.Ok? && (r.outcome.value.Result? || r.outcome.value.Error?)
  {
    ChainAllResolves(w, conts, Invoke(w, first, args));
  }

  /** When the first step rejects with `e`, the first continuation is skipped and
      `{error: e}` flows on to the rest. */
  lemma AllModeInitiatorRejected(w: World, first: Step, c: Arg, q: seq<Arg>, args: seq<Value>)
    requires Invoke(w, first, args).outcome.Err?
    ensures var init := Invoke(w, first, args);
      Invoke(w, Series(first, [c] + q, true), args)
      == Chain(w, q, true, Run(Ok(Error(init.outcome.reason)), init.trace, init.took))
  {
    var init := Invoke(w, first, args);
    assert ([c] + q)[1..] == q;
    assert Then(w, c, true, init) == Run(Ok(Error(init.outcome.reason)), init.trace, init.took);
    assert Invoke(w, Series(first, [c] + q, true), args) == Chain(w, [c] + q, true, init);
  }

  /** Argument flow through an "all"-mode chain of primitive continuations from a resolved run:
      every continuation is called, the first with the resolved value, each later one with
      the tagged outcome of its predecessor. */
  lemma {:induction false} AllPrimChainFlow(w: World, ids: seq<StepId>, acc: Run)
    requires acc.outcome.Ok?
    ensures var r := Chain(w, Fns(ids), true, acc);
      && |r.trace| == |acc.trace| + |ids|
      && r.trace[..|acc.trace|] == acc.trace
      && (|ids| > 0 ==> r.trace[|acc.trace|] == Call(ids[0], [acc.outcome.value]))
      && (forall i :: |acc.trace| < i < |r.trace| ==> TagFedBy(w, r.trace, ids, |acc.trace|, i))
      && r.outcome == if |ids| == 0 then acc.outcome else Ok(Tag(OutcomeOf(w, r.trace[|r.trace| - 1])))
    decreases |ids|
  {
    if |ids| > 0 {
      var v := acc.outcome.value;
      var next := Then(w, Fn(Prim(ids[0])), true, acc);
      assert Invoke(w, Prim(ids[0]), [v]) == Run(w.table(ids[0], [v]), [Call(ids[0], [v])], w.delay(ids[0], [v]));
      assert next.trace == acc.trace + [Call(ids[0], [v])];
      assert Fns(ids)[1..] == Fns(ids[1..]);
      AllPrimChainFlow(w, ids[1..], next);
      var r := Chain(w, Fns(ids), true, acc);
      assert r == Chain(w, Fns(ids[1..]), true, next);
      assert r.trace[..|next.trace|] == next.trace;
      assert r.trace[..|acc.trace|] == next.trace[..|acc.trace|];
      forall i | |acc.trace| < i < |r.trace|
        ensures TagFedBy(w, r.trace, ids, |acc.trace|, i)
      {
        if i == |next.trace| {
          assert r.trace[i - 1] == next.trace[|next.trace| - 1];
        } else {
          assert TagFedBy(w, r.trace, ids[1..], |next.trace|, i);
          assert ids[i - |acc.trace|] == ids[1..][i - |next.trace|];
        }
      }
    }
  }

  /** The resolved case of `SeriesAllArgumentFlow`: every continuation is called, the first
      with the first step's raw value. */
  lemma SeriesAllResolvedFlow(w: World, f: StepId, ids: seq<StepId>, args: seq<Value>)
    requires |ids| > 0 && w.table(f, args).Ok?
    ensures var r := Invoke(w, Series(Prim(f), Fns(ids), true), args);
      && |r.trace| == |ids| + 1
      && r.trace[0] == Call(f, args)
      && r.trace[1] == Call(ids[0], [w.table(f, args).value])
      && (forall i :: 1 < i < |r.trace| ==> TagFedBy(w, r.trace, ids, 1, i))
      && r.outcome == Ok(Tag(OutcomeOf(w, r.trace[|r.trace| - 1])))
  {
    var init := Invoke(w, Prim(f), args);
    AllPrimChainFlow(w, ids, init);
  }

  /** The rejected case of `SeriesAllArgumentFlow`: the first continuation is skipped and
      every later one is called with the tagged outcome of its predecessor. */
  lemma SeriesAllRejectedFlow(w: World, f: StepId, ids: seq<StepId>, args: seq<Value>)
    requires |ids| > 0 && w.table(f, args).Err?
    ensures var r := Invoke(w, Series(Prim(f), Fns(ids), true), args);
      && |r.trace| == |ids|
      && r.trace[0] == Call(f, args)
      && (forall i :: 0 < i < |r.trace| ==> TagFedBy(w, r.trace, ids, 0, i))
      && r.outcome == Ok(Tag(OutcomeOf(w, r.trace[|r.trace| - 1])))
  {
    var init := Invoke(w, Prim(f), args);
    var tagged := Run(Ok(Error(init.outcome.reason)), init.trace, init.took);
    assert Fns(ids) == [Fn(Prim(ids[0]))] + Fns(ids[1..]);
    AllModeInitiatorRejected(w, Prim(f), Fn(Prim(ids[0])), Fns(ids[1..]), args);
    AllPrimChainFlow(w, ids[1..], tagged);
    var r := Invoke(w, Series(Prim(f), Fns(ids), true), args);
    assert r == Chain(w, Fns(ids[1..]), true, tagged);
    forall i | 0 < i < |r.trace|
      ensures TagFedBy(w, r.trace, ids, 0, i)
    {
      if i == 1 {
        assert r.trace[0] == init.trace[0];
      } else {
        assert TagFedBy(w, r.trace, ids[1..], 1, i);
      }
    }
  }

  /** `series.all(f, ids...)` of primitive steps called with `args`: `f` is called with
      exactly `args`; if it resolves, every continuation is called once, the first with
      its raw value and each later one with the tagged outcome of its predecessor; if it
      rejects, the first continuation is skipped and every later one is called with the
      tagged outcome of its predecessor. Either way the series resolves, to the tagged
      outcome of the last call. */
  lemma SeriesAllArgumentFlow(w: World, f: StepId, ids: seq<StepId>, args: seq<Value>)
    requires |ids| > 0
    ensures var r := Invoke(w, SeriesAll(Prim(f), Fns(ids)), args);
      && |r.trace| >= 1
      && r.trace[0] == Call(f, args)
      && r.outcome == Ok(Tag(OutcomeOf(w, r.trace[|r.trace| - 1])))
      && (w.table(f, args).Ok? ==>
            && |r.trace| == |ids| + 1
            && r.trace[1] == Call(ids[0], [w.table(f, args).value])
            && forall i :: 1 < i < |r.trace| ==> TagFedBy(w, r.trace, ids, 1, i))
      && (w.table(f, args).Err? ==>
            && |r.trace| == |ids|
            && forall i :: 0 < i < |r.trace| ==> TagFedBy(w, r.trace, ids, 0, i))
  {
    assert SeriesAll(Prim(f), Fns(ids)) == Series(Prim(f), Fns(ids), true);
    if w.table(f, args).Ok? {
      SeriesAllResolvedFlow(w, f, ids, args);
    } else {
      SeriesAllRejectedFlow(w, f, ids, args);
    }
  }
}

=== FILE: compose.dfy ===
/**
  The composition API: what `series`, `series.all`, `parallel` and the
  top-level `pchain` build from their arguments. Composing never invokes a
  step; it only records the structure that `Eval.Invoke` later runs.

  JavaScript inspects each argument's runtime shape. Here every composition
  argument carries an explicit tag instead: a step, an array of steps, or a
  plain options object.
 */
module Compose {
  import opened Values

  /** A step: something that takes an argument list and returns a future. */
  datatype Step =
    | Prim(id: StepId)
      /** a function built by `parallel(branches...)`; the constructor is the whole composer */
    | Parallel(branches: seq<Step>)
      /** a function built by `series(first, conts...)` once its options were taken off */
    | Series(first: Step, conts: seq<Arg>, all: bool)

  /** One argument after the first given to `series`. */
  datatype Arg =
    | Fn(step: Step)
      /** an array literal of steps, the shorthand for a parallel group */
    | Arr(steps: seq<Step>)
      /** a plain object, such as the options record `{all: true}` */
    | Obj(all: bool)
      /** a value of primitive type (`undefined`, a boolean, a number or a string);
          only its type matters, since `.then` ignores a handler that is not a function */
    | Scalar

  /** `typeof a === 'object'`: true of arrays as well as of plain objects. */
  function IsObjectTyped(a: Arg): (b: bool)
    // neither a function nor a value of primitive type: an array is an object too
    ensures b <==> !a.Fn? && !a.Scalar?
  {
    a.Arr? || a.Obj?
  }

  /** `series(first, rest...)`: takes off a trailing object-typed argument as the options. */
  function SeriesOf(first: Step, rest: seq<Arg>): (s: Step)
    ensures s.Series? && s.first == first
    // only the last argument can be taken off, and nothing else is reordered or changed
    ensures s.conts <= rest && |rest| - 1 <= |s.conts|
    // it is taken off exactly when it is an array or a plain object
    ensures |s.conts| < |rest| <==> |rest| > 0 && IsObjectTyped(rest[|rest| - 1])
    // "all" mode is on exactly when that trailing argument is an object whose `all` is set;
    // a trailing array is dropped with `all` unset
    ensures s.all <==> |rest| > 0 && rest[|rest| - 1] == Obj(true)
  {
    if |rest| > 0 && IsObjectTyped(rest[|rest| - 1]) then
      var options := rest[|rest| - 1];
      Series(first, rest[..|rest| - 1], options.Obj? && options.all)
    else
      Series(first, rest, false)
  }

  /** `series.all(first, rest...)`: appends `{all: true}` before composing. */
  function SeriesAll(first: Step, rest: seq<Arg>): (s: Step)
    // every argument the caller gave is kept as a continuation, even a trailing array or object
    ensures s == Series(first, rest, true)
  {
    SeriesOf(first, rest + [Obj(true)])
  }

  /** The library's top-level callable `pchain(first, rest...)`. */
  function PChain(first: Step, rest: seq<Arg>): (s: Step)
    ensures s == SeriesOf(first, rest)
  {
    SeriesOf(first, rest)
  }
}

=== FILE: eval.dfy ===
/**
  Running a composed step. Every future is abstracted as the outcome it settles
  to and the time it takes to settle, so evaluation is a pure function of the
  world: what each primitive step settles to when called with given arguments,
  and after how long.

  A run records the outcome, the trace of primitive invocations, and the
  settlement time. The trace of a parallel group lists its branches' invocations
  branch by branch in declaration order.
 */
module Eval {
  import opened Values
  import opened Compose
  import Join

  /** What the primitive steps do: how each call settles, and after how long. */
  datatype World = World(
    table: (StepId, seq<Value>) -> Outcome,
    delay: (StepId, seq<Value>) -> nat)

  datatype Run = Run(outcome: Outcome, trace: seq<Call>, took: nat)

  /** Calls step `s` with argument list `args` (`fn.apply(null, args)`). */
  function Invoke(w: World, s: Step, args: seq<Value>): (r: Run)
    // a primitive step is called exactly once, with exactly the given arguments, and settles as the world says
    ensures s.Prim? ==> r.trace == [Call(s.id, args)] && r.outcome == w.table(s.id, args)
    decreases s, 2
  {
    match s
    case Prim(id) => Run(w.table(id, args), [Call(id, args)], w.delay(id, args))
    case Parallel(bs) => InvokeParallel(w, bs, args)
    case Series(first, conts, all) => Chain(w, conts, all, Invoke(w, first, args))
  }

  /** The function `parallel(bs...)` returns, called with `args`: every branch is
      called with the same list, then the futures are joined by `Promise.all`. */
  function InvokeParallel(w: World, bs: seq<Step>, args: seq<Value>): (r: Run)
    // resolves iff every branch, run on its own with `args`, resolves ...
    ensures r.outcome.Ok? <==> forall i :: 0 <= i < |bs| ==> Invoke(w, bs[i], args).outcome.Ok?
    // ... to the list of branch values in declaration order, whatever order they settle in
    ensures r.outcome.Ok? ==> r.outcome.value.List? && |r.outcome.value.items| == |bs|
    ensures r.outcome.Ok? ==>
              forall i :: 0 <= i < |bs| ==> r.outcome.value.items[i] == Invoke(w, bs[i], args).outcome.value
    // otherwise with the reason of a rejecting branch that no other rejecting branch settles before
    // (ties going to the branch declared first)
    ensures r.outcome.Err? ==>
              exists i :: 0 <= i < |bs| && Invoke(w, bs[i], args).outcome == Err(r.outcome.reason)
                          && forall j :: 0 <= j < |bs| && Invoke(w, bs[j], args).outcome.Err? ==>
                               || Invoke(w, bs[i], args).took < Invoke(w, bs[j], args).took
                               || (Invoke(w, bs[i], args).took == Invoke(w, bs[j], args).took && i <= j)
    decreases bs, 1
  {
    var rs := InvokeBranches(w, bs, args);
    var os := Outcomes(rs);
    var ts := Times(rs);
    Run(Join.JoinByTime(os, ts), Traces(rs), Join.JoinTime(os, ts))
  }

  /** Every branch called in declaration order, each with the same argument list. */
  function InvokeBranches(w: World, bs: seq<Step>, args: seq<Value>): (rs: seq<Run>)
    // run i is branch i run on its own with the group's own argument list
    ensures |rs| == |bs| && forall i :: 0 <= i < |bs| ==> rs[i] == Invoke(w, bs[i], args)
    decreases bs, 0
  {
    if |bs| == 0 then []
    else
      var rest := InvokeBranches(w, bs[1..], args);
      assert forall i :: 0 < i < |bs| ==> bs[1..][i - 1] == bs[i];
      [Invoke(w, bs[0], args)] + rest
  }

  function Outcomes(rs: seq<Run>): (os: seq<Outcome>)
    ensures |os| == |rs| && forall i :: 0 <= i < |rs| ==> os[i] == rs[i].outcome
  {
    seq(|rs|, i requires 0 <= i < |rs| => rs[i].outcome)
  }

  function Times(rs: seq<Run>): (ts: seq<nat>)
    ensures |ts| == |rs| && forall i :: 0 <= i < |rs| ==> ts[i] == rs[i].took
  {
    seq(|rs|, i requires 0 <= i < |rs| => rs[i].took)
  }

  /** The branch traces one after the other. */
  function Traces(rs: seq<Run>): seq<Call>
  {
    if |rs| == 0 then [] else rs[0].trace + Traces(rs[1..])
  }

  /** The reduce of `series`: attaches each continuation in turn to the future built so far. */
  function Chain(w: World, conts: seq<Arg>, all: bool, acc: Run): (r: Run)
    // calls already made stay made, and time only moves forward
    ensures acc.trace <= r.trace && acc.took <= r.took
    decreases conts, 2
  {
    if |conts| == 0 then acc
    else Chain(w, conts[1..], all, Then(w, conts[0], all, acc))
  }

  /** One round of the reduce: `promise.then(next)`, followed in "all" mode by
      `.then(r => ({result: r})).catch(e => ({error: e}))`. */
  function Then(w: World, next: Arg, all: bool, acc: Run): (r: Run)
    ensures acc.trace <= r.trace && acc.took <= r.took
    // a default-mode round after a rejection calls nothing and keeps the reason
    ensures !all && acc.outcome.Err? ==> r == acc
    // an "all"-mode round always resolves, to the tagged outcome
    ensures all ==> r.outcome.Ok? && (r.outcome.value.Result? || r.outcome.value.Error?)
    decreases next, 2
  {
    var chained :=
      if acc.outcome.Err? then acc   // no rejection handler: the rejection passes on
      else
        match next
        case Fn(s) => Sequence(acc, Invoke(w, s, [acc.outcome.value]))
        case Arr(ss) => Sequence(acc, InvokeParallel(w, ss, [acc.outcome.value]))
        case Obj(_) => acc           // a non-function handler: the value passes on
        case Scalar => acc;
    if all then Run(Ok(Tag(chained.outcome)), chained.trace, chained.took) else chained
  }

  /** `next` runs after `before` has settled. */
  function Sequence(before: Run, next: Run): Run
  {
    Run(next.outcome, before.trace + next.trace, before.took + next.took)
  }
}

=== FILE: join.dfy ===
/**
  The join primitive the parallel composer delegates to (`Promise.all`): it
  resolves to the ordered list of all branch values once every branch has
  resolved, and rejects with the reason of the first branch that settles
  rejected.

  Two descriptions of "first" are given. `PromiseAll` takes the settlement order
  explicitly, as a permutation of the branch indices. `JoinByTime` takes the
  time at which each branch settles and picks the earliest rejection, breaking
  ties by declaration order. `PromiseAllAgreesWithSettlementTimes` shows that
  the two agree for the order sorted by the times, ties going to the branch
  declared first.
 */
module Join {
  import opened Values

  /** Where a search stopped: at an index, or nowhere. */
  datatype Position = Nowhere | At(index: nat)

  /** `order` lists every branch index below `n` exactly once: a permutation. */
  predicate IsSettlementOrder(order: seq<nat>, n: nat)
  {
    && |order| == n
    && (forall k :: 0 <= k < |order| ==> order[k] < n)
    && (forall i :: 0 <= i < n ==> i in order)
  }

  /** The resolved values of branches that all resolved, in declaration order. */
  function Resolved(os: seq<Outcome>): (vs: seq<Value>)
    requires forall i :: 0 <= i < |os| ==> os[i].Ok?
    ensures |vs| == |os|
    ensures forall i :: 0 <= i < |os| ==> vs[i] == os[i].value
  {
    seq(|os|, i requires 0 <= i < |os| => os[i].value)
  }

  /** The first position at or after `from` in the settlement order whose branch rejected. */
  function FirstRejected(os: seq<Outcome>, order: seq<nat>, from: nat): (r: Position)
    requires from <= |order|
    requires forall k :: 0 <= k < |order| ==> order[k] < |os|
    ensures r.At? ==> from <= r.index < |order| && os[order[r.index]].Err?
    ensures r.At? ==> forall j :: from <= j < r.index ==> os[order[j]].Ok?
    ensures r.Nowhere? ==> forall j :: from <= j < |order| ==> os[order[j]].Ok?
    decreases |order| - from
  {
    if from == |order| then Nowhere
    else if os[order[from]].Err? then At(from)
    else FirstRejected(os, order, from + 1)
  }

  /** `Promise.all` over branches that settle in the given order. */
  function PromiseAll(os: seq<Outcome>, order: seq<nat>): (r: Outcome)
    requires IsSettlementOrder(order, |os|)
    ensures r.Ok? <==> forall i :: 0 <= i < |os| ==> os[i].Ok?
    ensures r.Ok? ==> r.value.List? && |r.value.items| == |os|
    ensures r.Ok? ==> forall i :: 0 <= i < |os| ==> os[i].Ok? && r.value.items[i] == os[i].value
    ensures r.Err? ==>
              exists k :: 0 <= k < |order| && os[order[k]].Err? && r.reason == os[order[k]].reason
                          && forall j :: 0 <= j < k ==> os[order[j]].Ok?
  {
    match FirstRejected(os, order, 0)
    case At(k) => Err(os[order[k]].reason)
    case Nowhere =>
      assert forall i :: 0 <= i < |os| ==> os[i].Ok? by {
        forall i | 0 <= i < |os| ensures os[i].Ok? {
          assert i in order;
          var k :| 0 <= k < |order| && order[k] == i;
        }
      }
      Ok(List(Resolved(os)))
  }

  /** Branch `a` settles no later than branch `b`: earlier time, or the same time and declared first. */
  predicate SettlesNoLater(times: seq<nat>, a: nat, b: nat)
    requires a < |times| && b < |times|
  {
    times[a] < times[b] || (times[a] == times[b] && a <= b)
  }

  /** The rejecting branch that settles first, if any branch rejects. */
  function EarliestRejection(os: seq<Outcome>, times: seq<nat>): (m: Position)
    requires |times| == |os|
    ensures m.Nowhere? <==> forall i :: 0 <= i < |os| ==> os[i].Ok?
    ensures m.At? ==> m.index < |os| && os[m.index].Err?
    ensures m.At? ==> forall j :: 0 <= j < |os| && os[j].Err? ==> SettlesNoLater(times, m.index, j)
    decreases |os|
  {
    if |os| == 0 then Nowhere
    else
      var n := |os| - 1;
      var earlier := EarliestRejection(os[..n], times[..n]);
      if os[n].Ok? then earlier
      else if earlier.Nowhere? || times[n] < times[earlier.index] then At(n)
      else earlier
  }

  /** `Promise.all` over branches that settle at the given times. */
  function JoinByTime(os: seq<Outcome>, times: seq<nat>): (r: Outcome)
    requires |times| == |os|
    ensures r.Ok? <==> forall i :: 0 <= i < |os| ==> os[i].Ok?
    ensures r.Ok? ==> r.value.List? && |r.value.items| == |os|
    ensures r.Ok? ==> forall i :: 0 <= i < |os| ==> os[i].Ok? && r.value.items[i] == os[i].value
    ensures r.Err? ==>
              exists i :: 0 <= i < |os| && os[i].Err? && r.reason == os[i].reason
                          && forall j :: 0 <= j < |os| && os[j].Err? ==> SettlesNoLater(times, i, j)
  {
    match EarliestRejection(os, times)
    case At(m) => Err(os[m].reason)
    case Nowhere => Ok(List(Resolved(os)))
  }

  /** When the joined future settles: at the earliest rejection, or once the last branch resolved. */
  function JoinTime(os: seq<Outcome>, times: seq<nat>): (t: nat)
    requires |times| == |os|
    // always at the settlement time of some branch
    ensures |os| > 0 ==> t in times
    // when every branch resolves: once the last of them has resolved
    ensures (forall i :: 0 <= i < |os| ==> os[i].Ok?) ==> forall i :: 0 <= i < |os| ==> times[i] <= t
    // no later than any rejection, and at the time of one of them
    ensures forall j :: 0 <= j < |os| && os[j].Err? ==> t <= times[j]
    ensures (exists i :: 0 <= i < |os| && os[i].Err?) ==> exists i :: 0 <= i < |os| && os[i].Err? && t == times[i]
  {
    match EarliestRejection(os, times)
    case At(m) => times[m]
    case Nowhere => Latest(times)
  }

  /** The largest of the given times (0 for none). */
  function Latest(times: seq<nat>): (t: nat)
    ensures forall i :: 0 <= i < |times| ==> times[i] <= t
    ensures |times| > 0 ==> t in times
    ensures |times| == 0 ==> t == 0
  {
    if |times| == 0 then 0
    else
      var rest := Latest(times[1..]);
      if times[0] < rest then rest else times[0]
  }

  /** The settlement order sorted by settlement time, ties going to the branch declared first. */
  predicate SortedBySettlement(order: seq<nat>, times: seq<nat>)
  {
    && IsSettlementOrder(order, |times|)
    && forall j, k :: 0 <= j < k < |order| ==> SettlesNoLater(times, order[j], order[k])
  }

  /** The order-based and the time-based descriptions of the join agree. */
  lemma PromiseAllAgreesWithSettlementTimes(os: seq<Outcome>, times: seq<nat>, order: seq<nat>)
    requires |times| == |os|
    requires SortedBySettlement(order, times)
    ensures PromiseAll(os, order) == JoinByTime(os, times)
  {
    match FirstRejected(os, order, 0)
    case Nowhere =>
    case At(k) =>
      var m := EarliestRejection(os, times).index;
      assert m in order;
      var p :| 0 <= p < |order| && order[p] == m;
      assert k <= p;
      if k < p {
        assert SettlesNoLater(times, order[k], order[p]);
        assert SettlesNoLater(times, m, order[k]);
      }
  }
}

=== FILE: parallel_laws.dfy ===
/**
  What a parallel group does: every branch is called once, in declaration
  order, with the same argument list; the group resolves to the ordered list of
  branch values, or rejects with the reason of the earliest-settling rejecting
  branch.
 */
module ParallelLaws {
  import opened Values
  import opened Compose
  import opened Eval
  import Join

  /** For the settlement order sorted by the branches' settlement times, ties going to the
      branch declared first, the group settles as `Promise.all` over the branch outcomes
      taken in that order. */
  lemma ParallelSettlementOrder(w: World, bs: seq<Step>, args: seq<Value>, order: seq<nat>)
    requires Join.SortedBySettlement(order, Times(InvokeBranches(w, bs, args)))
    ensures InvokeParallel(w, bs, args).outcome == Join.PromiseAll(Outcomes(InvokeBranches(w, bs, args)), order)
  {
    var rs := InvokeBranches(w, bs, args);
    Join.PromiseAllAgreesWithSettlementTimes(Outcomes(rs), Times(rs), order);
  }

  /** Primitive branches. */
  function Prims(ids: seq<StepId>): (bs: seq<Step>)
    ensures |bs| == |ids| && forall i :: 0 <= i < |ids| ==> bs[i] == Prim(ids[i])
  {
    seq(|ids|, i requires 0 <= i < |ids| => Prim(ids[i]))
  }

  /** How a group of primitive steps settles: it resolves iff every call resolves, to
      their values in declaration order; otherwise it rejects as one of its calls did. */
  lemma PrimGroupOutcome(w: World, ids: seq<StepId>, args: seq<Value>)
    ensures var r := InvokeParallel(w, Prims(ids), args);
      && (r.outcome.Ok? <==> forall i :: 0 <= i < |ids| ==> w.table(ids[i], args).Ok?)
      && (r.outcome.Ok? ==> r.outcome == Ok(List(seq(|ids|, i requires 0 <= i < |ids| => w.table(ids[i], args).value))))
      && (r.outcome.Err? ==> exists i :: 0 <= i < |ids| && w.table(ids[i], args) == r.outcome)
  {
    var bs := Prims(ids);
    var r := InvokeParallel(w, bs, args);
    assert forall i :: 0 <= i < |ids| ==> Invoke(w, bs[i], args).outcome == w.table(ids[i], args);
    if r.outcome.Ok? {
      var vs := seq(|ids|, i requires 0 <= i < |ids| => w.table(ids[i], args).value);
      assert forall i :: 0 <= i < |ids| ==> r.outcome.value.items[i] == vs[i];
      assert r.outcome.value.items == vs;
    }
  }

  /** A group of primitive steps calls each branch exactly once, in declaration order,
      all with the identical argument list, and calls nothing else; it resolves iff
      every call resolves, to their values in declaration order (the empty group to
      the empty list). */
  lemma ParallelOfPrims(w: World, ids: seq<StepId>, args: seq<Value>)
    ensures var r := Invoke(w, Parallel(Prims(ids)), args);
      && r.trace == seq(|ids|, i requires 0 <= i < |ids| => Call(ids[i], args))
      && (r.outcome.Ok? <==> forall i :: 0 <= i < |ids| ==> w.table(ids[i], args).Ok?)
      && (r.outcome.Ok? ==> r.outcome == Ok(List(seq(|ids|, i requires 0 <= i < |ids| => w.table(ids[i], args).value))))
      && (r.outcome.Err? ==> exists i :: 0 <= i < |ids| && w.table(ids[i], args) == r.outcome)
  {
    PrimTraces(w, ids, args);
    PrimGroupOutcome(w, ids, args);
    assert Invoke(w, Parallel(Prims(ids)), args) == InvokeParallel(w, Prims(ids), args);
  }

  lemma {:induction false} PrimTraces(w: World, ids: seq<StepId>, args: seq<Value>)
    ensures Traces(InvokeBranches(w, Prims(ids), args))
         == seq(|ids|, i requires 0 <= i < |ids| => Call(ids[i], args))
    decreases |ids|
  {
    if |ids| > 0 {
      assert Prims(ids)[1..] == Prims(ids[1..]);
      PrimTraces(w, ids[1..], args);
    }
  }
}

=== FILE: scenarios.dfy ===
/**
  The scenarios of the library's test suite, each as a concrete world and the
  run the model gives for it.
 */
module Scenarios {
  import opened Values
  import opened Compose
  import opened Eval
  import Join
  import SeriesLaws

  const P1: StepId := 1
  const P2: StepId := 2
  const P3: StepId := 3
  const P4: StepId := 4

  /** Any call the scenario does not expect rejects, so that a stray call would show in the outcome. */
  const Unexpected := Err(Str("unexpected call"))

  /** `p1('foo', 'bar')` resolves 'herp'; `p2('herp')` resolves 'derp'; `p3('herp')`
      resolves true (after `p2`); `p4(['derp', true])` resolves false. */
  function ComboWorld(): World
  {
    World(
      (id: StepId, args: seq<Value>) =>
        if id == P1 && args == [Str("foo"), Str("bar")] then Ok(Str("herp"))
        else if id == P2 && args == [Str("herp")] then Ok(Str("derp"))
        else if id == P3 && args == [Str("herp")] then Ok(Bool(true))
        else if id == P4 && args == [List([Str("derp"), Bool(true)])] then Ok(Bool(false))
        else Unexpected,
      (id: StepId, args: seq<Value>) => if id == P3 then 2 else 1)
  }

  /** `series(p1, parallel(p2, p3), p4)('foo', 'bar')` calls `p1('foo', 'bar')`, then
      `p2('herp')` and `p3('herp')`, then `p4(['derp', true])`, and resolves false. */
  lemma CombinedSeriesAndParallel()
    ensures var r := Invoke(ComboWorld(), SeriesOf(Prim(P1), [Fn(Parallel([Prim(P2), Prim(P3)])), Fn(Prim(P4))]),
                            [Str("foo"), Str("bar")]);
      && r.trace == [Call(P1, [Str("foo"), Str("bar")]), Call(P2, [Str("herp")]), Call(P3, [Str("herp")]),
                     Call(P4, [List([Str("derp"), Bool(true)])])]
      && r.outcome == Ok(Bool(false))
  {
    var w := ComboWorld();
    var foobar := [Str("foo"), Str("bar")];
    var herp := [Str("herp")];
    var pair := List([Str("derp"), Bool(true)]);
    var init := Invoke(w, Prim(P1), foobar);
    assert init == Run(Ok(Str("herp")), [Call(P1, foobar)], 1);
    var b2 := Invoke(w, Prim(P2), herp);
    var b3 := Invoke(w, Prim(P3), herp);
    assert b2 == Run(Ok(Str("derp")), [Call(P2, herp)], 1);
    assert b3 == Run(Ok(Bool(true)), [Call(P3, herp)], 2);
    var rs := InvokeBranches(w, [Prim(P2), Prim(P3)], herp);
    assert [Prim(P2), Prim(P3)][1..] == [Prim(P3)];
    assert InvokeBranches(w, [Prim(P3)], herp) == [b3];
    assert rs == [b2, b3];
    assert Traces(rs) == [Call(P2, herp), Call(P3, herp)] by {
      assert Traces(rs[1..]) == b3.trace + Traces([]);
    }
    var group := Invoke(w, Parallel([Prim(P2), Prim(P3)]), herp);
    assert group == InvokeParallel(w, [Prim(P2), Prim(P3)], herp);
    assert Outcomes(rs) == [Ok(Str("derp")), Ok(Bool(true))];
    assert Join.Resolved(Outcomes(rs)) == [Str("derp"), Bool(true)];
    assert group.outcome == Ok(pair);
    assert group.trace == [Call(P2, herp), Call(P3, herp)];
    var after := Then(w, Fn(Parallel([Prim(P2), Prim(P3)])), false, init);
    assert after.outcome == Ok(pair);
    assert after.trace == [Call(P1, foobar), Call(P2, herp), Call(P3, herp)];
    var last := Invoke(w, Prim(P4), [pair]);
    assert last == Run(Ok(Bool(false)), [Call(P4, [pair])], 1);
    var conts := [Fn(Parallel([Prim(P2), Prim(P3)])), Fn(Prim(P4))];
    assert SeriesOf(Prim(P1), conts) == Series(Prim(P1), conts, false);
    assert conts[1..] == [Fn(Prim(P4))];
    assert Chain(w, conts, false, init) == Chain(w, [Fn(Prim(P4))], false, after);
    assert Chain(w, [Fn(Prim(P4))], false, after) == Then(w, Fn(Prim(P4)), false, after);
  }

  /** The same pipeline with the parallel group written as an array. */
  lemma CombinedSeriesAndArray()
    ensures var r := Invoke(ComboWorld(), SeriesOf(Prim(P1), [Arr([Prim(P2), Prim(P3)]), Fn(Prim(P4))]),
                            [Str("foo"), Str("bar")]);
      && r.trace == [Call(P1, [Str("foo"), Str("bar")]), Call(P2, [Str("herp")]), Call(P3, [Str("herp")]),
                     Call(P4, [List([Str("derp"), Bool(true)])])]
      && r.outcome == Ok(Bool(false))
  {
    CombinedSeriesAndParallel();
    var conts := [Arr([Prim(P2), Prim(P3)]), Fn(Prim(P4))];
    assert SeriesOf(Prim(P1), conts) == Series(Prim(P1), conts, false);
    assert SeriesOf(Prim(P1), [Fn(Parallel([Prim(P2), Prim(P3)])), Fn(Prim(P4))])
        == Series(Prim(P1), [Fn(Parallel([Prim(P2), Prim(P3)])), Fn(Prim(P4))], false);
    SeriesLaws.ArrayShorthand(ComboWorld(), Prim(P1), [], [Prim(P2), Prim(P3)], [Fn(Prim(P4))], false,
                              [Str("foo"), Str("bar")]);
    assert [] + [Arr([Prim(P2), Prim(P3)])] + [Fn(Prim(P4))] == conts;
    assert [] + [Fn(Parallel([Prim(P2), Prim(P3)]))] + [Fn(Prim(P4))]
        == [Fn(Parallel([Prim(P2), Prim(P3)])), Fn(Prim(P4))];
  }

  /** `p1()` rejects 'error'; anything else resolves 'result', later. */
  function FirstFailsWorld(): World
  {
    World(
      (id: StepId, args: seq<Value>) => if id == P1 then Err(Str("error")) else Ok(Str("result")),
      (id: StepId, args: seq<Value>) => if id == P1 then 1 else 2)
  }

  /** `series(p1, p2)()` with `p1` rejecting: `p2` is never called and the series rejects with 'error'. */
  lemma SeriesThrowsFirstError()
    ensures var r := Invoke(FirstFailsWorld(), SeriesOf(Prim(P1), [Fn(Prim(P2))]), []);
      r.trace == [Call(P1, [])] && r.outcome == Err(Str("error"))
  {
    var w := FirstFailsWorld();
    var init := Invoke(w, Prim(P1), []);
    assert init == Run(Err(Str("error")), [Call(P1, [])], 1);
    assert SeriesOf(Prim(P1), [Fn(Prim(P2))]) == Series(Prim(P1), [Fn(Prim(P2))], false);
    assert Chain(w, [Fn(Prim(P2))], false, init) == Then(w, Fn(Prim(P2)), false, init);
  }

  /** `parallel(p1, p2)()` with `p1` rejecting 'error' first and `p2` resolving 'result'
      later: both are called, and the group rejects with 'error'. */
  lemma ParallelThrowsFirstError()
    ensures var r := Invoke(FirstFailsWorld(), Parallel([Prim(P1), Prim(P2)]), []);
      r.trace == [Call(P1, []), Call(P2, [])] && r.outcome == Err(Str("error"))
  {
    var w := FirstFailsWorld();
    var b1 := Invoke(w, Prim(P1), []);
    var b2 := Invoke(w, Prim(P2), []);
    assert b1 == Run(Err(Str("error")), [Call(P1, [])], 1);
    assert b2 == Run(Ok(Str("result")), [Call(P2, [])], 2);
    assert [Prim(P1), Prim(P2)][1..] == [Prim(P2)];
    assert InvokeBranches(w, [Prim(P2)], []) == [b2];
    var rs := InvokeBranches(w, [Prim(P1), Prim(P2)], []);
    assert rs == [b1, b2];
    assert Traces(rs) == [Call(P1, []), Call(P2, [])] by {
      assert Traces(rs[1..]) == b2.trace + Traces([]);
    }
    assert Outcomes(rs) == [Err(Str("error")), Ok(Str("result"))];
    assert Invoke(w, Parallel([Prim(P1), Prim(P2)]), []) == InvokeParallel(w, [Prim(P1), Prim(P2)], []);
  }

  /** `p1(...)` resolves 'result1'; `p2` rejects 'result2'. */
  function SecondFailsWorld(): World
  {
    World(
      (id: StepId, args: seq<Value>) => if id == P1 then Ok(Str("result1")) else Err(Str("result2")),
      (id: StepId, args: seq<Value>) => 1)
  }

  /** `series.all(p1, p2)('foo', 'bar')`: `p2` receives the raw 'result1' (the tag is only
      applied after a continuation), and `p2`'s rejection resolves the series to
      `{error: 'result2'}`. */
  lemma SeriesAllSecondFails()
    ensures var r := Invoke(SecondFailsWorld(), SeriesAll(Prim(P1), [Fn(Prim(P2))]), [Str("foo"), Str("bar")]);
      && r.trace == [Call(P1, [Str("foo"), Str("bar")]), Call(P2, [Str("result1")])]
      && r.outcome == Ok(Error(Str("result2")))
  {
    var w := SecondFailsWorld();
    var foobar := [Str("foo"), Str("bar")];
    var init := Invoke(w, Prim(P1), foobar);
    assert init == Run(Ok(Str("result1")), [Call(P1, foobar)], 1);
    assert Invoke(w, Prim(P2), [Str("result1")]) == Run(Err(Str("result2")), [Call(P2, [Str("result1")])], 1);
    assert SeriesAll(Prim(P1), [Fn(Prim(P2))]) == Series(Prim(P1), [Fn(Prim(P2))], true);
    assert Chain(w, [Fn(Prim(P2))], true, init) == Then(w, Fn(Prim(P2)), true, init);
  }

  /** `series.all(p1, p2)` with `p1` rejecting 'error': `p2` is skipped and the series
      resolves to `{error: 'error'}`. */
  lemma SeriesAllFirstFails()
    ensures var r := Invoke(FirstFailsWorld(), SeriesAll(Prim(P1), [Fn(Prim(P2))]), [Str("foo"), Str("bar")]);
      r.trace == [Call(P1, [Str("foo"), Str("bar")])] && r.outcome == Ok(Error(Str("error")))
  {
    var w := FirstFailsWorld();
    var foobar := [Str("foo"), Str("bar")];
    var init := Invoke(w, Prim(P1), foobar);
    assert init == Run(Err(Str("error")), [Call(P1, foobar)], 1);
    assert SeriesAll(Prim(P1), [Fn(Prim(P2))]) == Series(Prim(P1), [Fn(Prim(P2))], true);
    assert Chain(w, [Fn(Prim(P2))], true, init) == Then(w, Fn(Prim(P2)), true, init);
  }

  /** `p1()` resolves 'result'; anything else rejects 'error', later. */
  function SecondFailsParallelWorld(): World
  {
    World(
      (id: StepId, args: seq<Value>) => if id == P1 then Ok(Str("result")) else Err(Str("error")),
      (id: StepId, args: seq<Value>) => if id == P1 then 1 else 2)
  }

  /** `parallel(p1, p2)()` with `p1` resolving 'result' and `p2` rejecting 'error': both
      are called, and the group rejects with `p2`'s reason. */
  lemma ParallelThrowsSecondError()
    ensures var r := Invoke(SecondFailsParallelWorld(), Parallel([Prim(P1), Prim(P2)]), []);
      r.trace == [Call(P1, []), Call(P2, [])] && r.outcome == Err(Str("error"))
  {
    var w := SecondFailsParallelWorld();
    var b1 := Invoke(w, Prim(P1), []);
    var b2 := Invoke(w, Prim(P2), []);
    assert b1 == Run(Ok(Str("result")), [Call(P1, [])], 1);
    assert b2 == Run(Err(Str("error")), [Call(P2, [])], 2);
    assert [Prim(P1), Prim(P2)][1..] == [Prim(P2)];
    assert InvokeBranches(w, [Prim(P2)], []) == [b2];
    var rs := InvokeBranches(w, [Prim(P1), Prim(P2)], []);
    assert rs == [b1, b2];
    assert Traces(rs) == [Call(P1, []), Call(P2, [])] by {
      assert Traces(rs[1..]) == b2.trace + Traces([]);
    }
    assert Outcomes(rs) == [Ok(Str("result")), Err(Str("error"))];
    assert Invoke(w, Parallel([Prim(P1), Prim(P2)]), []) == InvokeParallel(w, [Prim(P1), Prim(P2)], []);
  }

  /** `p1(...)` resolves 'result1'; anything else resolves 'result2'. */
  function BothSucceedWorld(): World
  {
    World(
      (id: StepId, args: seq<Value>) => if id == P1 then Ok(Str("result1")) else Ok(Str("result2")),
      (id: StepId, args: seq<Value>) => 1)
  }

  /** `series.all(p1, p2)('foo', 'bar')` with both resolving: `p1` is called with the
      caller's arguments, then `p2` with the raw 'result1', and the series resolves to
      `{result: 'result2'}`, the tagged value of the last call. */
  lemma SeriesAllBothSucceedResolves()
    ensures var r := Invoke(BothSucceedWorld(), SeriesAll(Prim(P1), [Fn(Prim(P2))]), [Str("foo"), Str("bar")]);
      && r.trace == [Call(P1, [Str("foo"), Str("bar")]), Call(P2, [Str("result1")])]
      && r.outcome == Ok(Result(Str("result2")))
  {
    var w := BothSucceedWorld();
    var foobar := [Str("foo"), Str("bar")];
    var init := Invoke(w, Prim(P1), foobar);
    assert init == Run(Ok(Str("result1")), [Call(P1, foobar)], 1);
    assert Invoke(w, Prim(P2), [Str("result1")]) == Run(Ok(Str("result2")), [Call(P2, [Str("result1")])], 1);
    assert SeriesAll(Prim(P1), [Fn(Prim(P2))]) == Series(Prim(P1), [Fn(Prim(P2))], true);
    assert Chain(w, [Fn(Prim(P2))], true, init) == Then(w, Fn(Prim(P2)), true, init);
  }

  /** `series.all(p1, p2)('foo', 'bar')` with `p1` resolving 'result1': `p1` is called once
      with 'foo', 'bar', and then `p2` once with the raw 'result1'. */
  lemma SeriesAllBothSucceed()
    ensures var r := Invoke(BothSucceedWorld(), SeriesAll(Prim(P1), [Fn(Prim(P2))]), [Str("foo"), Str("bar")]);
      r.trace == [Call(P1, [Str("foo"), Str("bar")]), Call(P2, [Str("result1")])]
  {
    SeriesAllBothSucceedResolves();
  }
}

=== FILE: series_laws.dfy ===
/**
  What a default-mode series does: how arguments flow from step to step, how a
  rejection short-circuits the chain, which trailing argument is taken as the
  options, and that an array continuation is a parallel group.
 */
module SeriesLaws {
  import opened Values
  import opened Compose
  import opened Eval

  /** Continuations that are all primitive steps. */
  function Fns(ids: seq<StepId>): (conts: seq<Arg>)
    ensures |conts| == |ids| && forall i :: 0 <= i < |ids| ==> conts[i] == Fn(Prim(ids[i]))
  {
    seq(|ids|, i requires 0 <= i < |ids| => Fn(Prim(ids[i])))
  }

  /** How the call `c` settles. */
  function OutcomeOf(w: World, c: Call): Outcome
  {
    w.table(c.step, c.args)
  }

  /** Call `i` of `trace` is continuation `ids[i - offset]`, given the single value
      the previous call resolved to. */
  predicate FedBy(w: World, trace: seq<Call>, ids: seq<StepId>, offset: nat, i: nat)
    requires 0 < i < |trace| && offset <= i < offset + |ids|
  {
    && OutcomeOf(w, trace[i - 1]).Ok?
    && trace[i] == Call(ids[i - offset], [OutcomeOf(w, trace[i - 1]).value])
  }

  /** Folding over `p + q` is folding over `p`, then over `q`. */
  lemma {:induction false} ChainAppend(w: World, p: seq<Arg>, q: seq<Arg>, all: bool, acc: Run)
    ensures Chain(w, p + q, all, acc) == Chain(w, q, all, Chain(w, p, all, acc))
    decreases |p|
  {
    if |p| == 0 {
      assert p + q == q;
    } else {
      assert (p + q)[1..] == p[1..] + q;
      ChainAppend(w, p[1..], q, all, Then(w, p[0], all, acc));
    }
  }

  /** In default mode, once the chain has rejected no continuation runs and the reason is kept. */
  lemma {:induction false} ChainAfterRejection(w: World, conts: seq<Arg>, acc: Run)
    requires acc.outcome.Err?
    ensures Chain(w, conts, false, acc) == acc
    decreases |conts|
  {
    if |conts| > 0 {
      ChainAfterRejection(w, conts[1..], acc);
    }
  }

  /** If the chain has rejected by continuation `k`, the whole series is exactly its
      run up to `k`: nothing after `k` is invoked and the rejection reason is unchanged. */
  lemma ShortCircuit(w: World, first: Step, conts: seq<Arg>, k: nat, args: seq<Value>)
    requires k < |conts|
    requires Chain(w, conts[..k + 1], false, Invoke(w, first, args)).outcome.Err?
    ensures Invoke(w, Series(first, conts, false), args)
            == Chain(w, conts[..k + 1], false, Invoke(w, first, args))
  {
    var prefix := Chain(w, conts[..k + 1], false, Invoke(w, first, args));
    assert conts == conts[..k + 1] + conts[k + 1..];
    ChainAppend(w, conts[..k + 1], conts[k + 1..], false, Invoke(w, first, args));
    ChainAfterRejection(w, conts[k + 1..], prefix);
  }

  /** Argument flow through a default-mode chain of primitive continuations,
      starting from a run whose outcome is that of its last call. */
  lemma {:induction false} PrimChainFlow(w: World, ids: seq<StepId>, acc: Run)
    requires |acc.trace| > 0 && acc.outcome == OutcomeOf(w, acc.trace[|acc.trace| - 1])
    ensures var r := Chain(w, Fns(ids), false, acc);
      && |acc.trace| <= |r.trace| <= |acc.trace| + |ids|
      && r.trace[..|acc.trace|] == acc.trace
      && (forall i :: |acc.trace| <= i < |r.trace| ==> FedBy(w, r.trace, ids, |acc.trace|, i))
      && (|r.trace| == |acc.trace| + |ids| || OutcomeOf(w, r.trace[|r.trace| - 1]).Err?)
      && r.outcome == OutcomeOf(w, r.trace[|r.trace| - 1])
    decreases |ids|
  {
    if |ids| == 0 {
    } else if acc.outcome.Err? {
      ChainAfterRejection(w, Fns(ids), acc);
    } else {
      var v := acc.outcome.value;
      var next := Then(w, Fn(Prim(ids[0])), false, acc);
      assert Invoke(w, Prim(ids[0]), [v]) == Run(w.table(ids[0], [v]), [Call(ids[0], [v])], w.delay(ids[0], [v]));
      assert next.trace == acc.trace + [Call(ids[0], [v])];
      assert Fns(ids)[1..] == Fns(ids[1..]);
      PrimChainFlow(w, ids[1..], next);
      var r := Chain(w, Fns(ids), false, acc);
      assert r == Chain(w, Fns(ids[1..]), false, next);
      assert r.trace[..|next.trace|] == next.trace;
      assert r.trace[..|acc.trace|] == next.trace[..|acc.trace|];
      forall i | |acc.trace| <= i < |r.trace|
        ensures FedBy(w, r.trace, ids, |acc.trace|, i)
      {
        if i == |acc.trace| {
          assert r.trace[i] == next.trace[i];
          assert r.trace[i - 1] == acc.trace[|acc.trace| - 1];
        } else {
          assert FedBy(w, r.trace, ids[1..], |next.trace|, i);
          assert ids[i - |acc.trace|] == ids[1..][i - |next.trace|];
        }
      }
    }
  }

  /** A default-mode series of primitive steps `f, ids...` called with `args`:
      `f` is called once with exactly `args`; each later step is called once, with
      the single value its predecessor resolved to; the chain stops at the first
      rejection and at no other point; and the series settles as its last call did,
      so a rejection reason arrives unchanged. */
  lemma SeriesArgumentFlow(w: World, f: StepId, ids: seq<StepId>, args: seq<Value>)
    ensures var r := Invoke(w, Series(Prim(f), Fns(ids), false), args);
      && 1 <= |r.trace| <= |ids| + 1
      && r.trace[0] == Call(f, args)
      && (forall i :: 1 <= i < |r.trace| ==> FedBy(w, r.trace, ids, 1, i))
      && (|r.trace| == |ids| + 1 || OutcomeOf(w, r.trace[|r.trace| - 1]).Err?)
      && r.outcome == OutcomeOf(w, r.trace[|r.trace| - 1])
  {
    PrimChainFlow(w, ids, Invoke(w, Prim(f), args));
  }

  /** With no continuations left after the options are taken off, the series is its first step. */
  lemma NoContinuations(w: World, first: Step, rest: seq<Arg>, args: seq<Value>)
    requires |rest| == 0 || (|rest| == 1 && IsObjectTyped(rest[0]))
    ensures Invoke(w, SeriesOf(first, rest), args) == Invoke(w, first, args)
  {
  }

  /** A trailing array is taken for an options object and dropped: its steps never run. */
  lemma TrailingArrayDropped(w: World, first: Step, p: seq<Arg>, ss: seq<Step>, args: seq<Value>)
    ensures Invoke(w, SeriesOf(first, p + [Arr(ss)]), args) == Invoke(w, Series(first, p, false), args)
  {
    assert (p + [Arr(ss)])[..|p|] == p;
  }

  /** A trailing argument of primitive type is not taken as the options: every argument stays
      a continuation, "all" mode stays off, and the trailing argument itself adds nothing. */
  lemma TrailingScalarIgnored(w: World, first: Step, rest: seq<Arg>, args: seq<Value>)
    ensures Invoke(w, SeriesOf(first, rest + [Scalar]), args) == Invoke(w, Series(first, rest, false), args)
  {
    var init := Invoke(w, first, args);
    assert SeriesOf(first, rest + [Scalar]) == Series(first, rest + [Scalar], false);
    ChainAppend(w, rest, [Scalar], false, init);
    var before := Chain(w, rest, false, init);
    assert Chain(w, [Scalar], false, before) == Then(w, Scalar, false, before);
  }

  /** An array continuation behaves exactly like `parallel` over its steps in the same position. */
  lemma ArrayShorthand(w: World, first: Step, p: seq<Arg>, ss: seq<Step>, q: seq<Arg>, all: bool, args: seq<Value>)
    ensures Invoke(w, Series(first, p + [Arr(ss)] + q, all), args)
         == Invoke(w, Series(first, p + [Fn(Parallel(ss))] + q, all), args)
  {
    var start := Invoke(w, first, args);
    var before := Chain(w, p, all, start);
    ChainAppend(w, p + [Arr(ss)], q, all, start);
    ChainAppend(w, p, [Arr(ss)], all, start);
    ChainAppend(w, p + [Fn(Parallel(ss))], q, all, start);
    ChainAppend(w, p, [Fn(Parallel(ss))], all, start);
    assert Chain(w, [Arr(ss)], all, before) == Then(w, Arr(ss), all, before);
    assert Chain(w, [Fn(Parallel(ss))], all, before) == Then(w, Fn(Parallel(ss)), all, before);
  }

  /** The same through argument parsing, as long as the array is not the last argument. */
  lemma ArrayShorthandComposed(w: World, first: Step, p: seq<Arg>, ss: seq<Step>, q: seq<Arg>, args: seq<Value>)
    requires |q| > 0
    ensures Invoke(w, SeriesOf(first, p + [Arr(ss)] + q), args)
         == Invoke(w, SeriesOf(first, p + [Fn(Parallel(ss))] + q), args)
  {
    var last := q[|q| - 1];
    var q' := if IsObjectTyped(last) then q[..|q| - 1] else q;
    var all := last == Obj(true);
    assert SeriesOf(first, p + [Arr(ss)] + q) == Series(first, p + [Arr(ss)] + q', all) by {
      if IsObjectTyped(last) {
        assert (p + [Arr(ss)] + q)[..|p| + |q|] == p + [Arr(ss)] + q';
      }
    }
    assert SeriesOf(first, p + [Fn(Parallel(ss))] + q) == Series(first, p + [Fn(Parallel(ss))] + q', all) by {
      if IsObjectTyped(last) {
        assert (p + [Fn(Parallel(ss))] + q)[..|p| + |q|] == p + [Fn(Parallel(ss))] + q';
      }
    }
    ArrayShorthand(w, first, p, ss, q', all, args);
  }
}

=== FILE: values.dfy ===
/**
  The values that flow through a composed pipeline, and the settled outcome of
  a future. A future is abstracted as the outcome it settles to: resolved with
  a value, or rejected with a reason.
 */
module Values {

  /** Identifies one primitive step (a user-supplied promise-returning function). */
  type StepId = nat

  /** The JavaScript values the model needs to tell apart. `Result` and `Error`
      are the two objects `{result: v}` and `{error: e}` that "all" mode builds. */
  datatype Value =
    | Undefined
    | Bool(b: bool)
    | Num(n: int)
    | Str(s: string)
    | List(items: seq<Value>)
    | Result(result: Value)
    | Error(error: Value)

  /** How a future settled. */
  datatype Outcome = Ok(value: Value) | Err(reason: Value)

  /** The value "all" mode turns a settled outcome into: `{result: v}` or `{error: e}`. */
  function Tag(o: Outcome): (v: Value)
    // the object keeps both how the future settled and what it settled with
    ensures v.Result? <==> o.Ok?
    ensures v.Error? <==> o.Err?
    ensures o.Ok? ==> v.result == o.value
    ensures o.Err? ==> v.error == o.reason
  {
    match o
    case Ok(v) => Result(v)
    case Err(e) => Error(e)
  }

  /** One invocation of a primitive step, with the exact argument list it received. */
  datatype Call = Call(step: StepId, args: seq<Value>)
}
